=== FILE: README.md ===
# Bossbat coordination core in Dafny

Bossbat is a distributed job scheduler. Several identical worker processes share
one Redis database. Each worker keeps its own registry of named jobs and its own
list of QA middlewares. A job's next run is armed as an expiring timer key. When
the key expires, every worker hears the expiry. Every worker that has hired the
job races for a zero-retry lock, and the winner runs the middleware chain and
then the work; a worker that has not hired the job ignores the expiry.
Every worker that hired a recurring job also re-arms its next timer with
set-if-absent, so those writes collapse into one.

This project models that logic as pure transitions over immutable values:

- `values.dfy` (`Values`): `Option`, `Result`, `Outcome`, and the JavaScript
  values that `every`/`cron` can hold, with JS truthiness and `typeof`.
- `keys.dfy` (`Keys`): the key builders `<prefix>:work:<name>`,
  `<prefix>:work:demand:<name>` and `<prefix>:lock:<name>`, and the router's
  decoding of an expired key back to a job name, with round-trip lemmas.
- `store.dfy` (`Store`): the shared store as a map from key to (value, TTL).
  It offers `SET … PX … NX`, `DEL`, the lock's compare-and-delete release, and
  an explicit expiry event that publishes the key's name.
- `chain.dfy` (`Chain`): the middleware chain. It is an ordered list, outermost
  first, with the work as the terminal step.
- `scheduler.dfy` (`Scheduler`): delay resolution and `scheduleRun`.
- `bossbat.dfy` (`Bossbat`): one worker. It covers `hire`, `fire`, `demand`,
  `qa`, `quit`'s registry reset, the router, the lock and `doWork`.
- `race.dfy` (`Race`): one expiry delivered to many workers in an order the
  environment chooses, with the single-winner lemma.

Outside inputs are parameters. The duration parser, the cron evaluator, the time
zone and the clock together form an `Env`. Lock tokens are strings chosen by the
caller. Whether the work succeeds is a boolean. The caller picks which key expires,
through `Store.Expire`.

Where the code behaves differently from what its API names and tests suggest,
the model follows the code:

- `fire` only deletes `<prefix>:work:<name>`. The definition stays in the
  registry, so a later `demand` still runs it (`Bossbat.FiredJobStillDemandable`).
- `hire` writes the registry entry before scheduling can raise. An invalid
  `every` therefore raises and arms nothing, but the new definition stays
  registered (`Bossbat.Hire`).
- The second cron delay is used without a positivity check. Redis refuses a
  non-positive `PX`, so in that case nothing is armed
  (`Scheduler.CronSecondDelayUnchecked`).
- Names containing colons round-trip, except names that begin with `demand:`.
  The timer of job `demand:x` is the demand key of `x`
  (`Keys.DemandKeyIsJobKey`, `Keys.JobKeyRoundTrip`,
  `Bossbat.DemandPrefixedTimerMisrouted`).
- A run happens once per occurrence only while all lock attempts overlap the
  winner's lock. If the winner releases the lock before a slower worker's
  attempt arrives, that worker runs the job as well
  (`Race.ReleaseBeforeLateAttemptRunsTwice`).

## Model

| member | source | states |
|---|---|---|
| Values.Truthy | lib/Bossbat.js:81 | a value is truthy iff it is not one of `undefined`, `null`, `false`, `0`, `0n` and `""` |
| Values.TypeOf | lib/Bossbat.js:7 | `typeof` names one of the eight JavaScript types; it is `number` exactly for numbers, `string` exactly for strings, and `object` exactly for `null` and objects |
| Keys.JobKey | lib/Bossbat.js:143-145 | the timer key is the prefix, then `:work:`, then the name |
| Keys.DemandKey | lib/Bossbat.js:152-154 | the demand key is the prefix, then `:work:demand:`, then the name |
| Keys.LockKey | lib/Bossbat.js:161-163 | the lock key is the prefix, then `:lock:`, then the name |
| Keys.WorkName | lib/Bossbat.js:71-73 | an expired key decodes to a name iff it starts with `<prefix>:work:`; the key is then the demand or timer segment followed by that name, and the demand segment is preferred |
| Keys.DemandKeyRoundTrip | lib/Bossbat.js:150-157 | every name, colons included, decodes back from its demand key |
| Keys.JobKeyRoundTrip | lib/Bossbat.js:141-148 | a timer key decodes to its own name iff the name does not begin with `demand:`; otherwise to the name without that marker |
| Keys.DemandKeyIsJobKey | lib/Bossbat.js:143-154 | the demand key of `x` is the same string as the timer key of `demand:x` |
| Keys.LockKeyNeverRoutes | lib/Bossbat.js:162 | no lock key is ever decoded as work |
| Keys.KeysDistinct | lib/Bossbat.js:141-166 | timer keys are injective in the name; timer and demand keys never equal lock keys; a demand key equals a timer key only for the `demand:`-prefixed name |
| Store.SetPxNx | lib/Bossbat.js:207 | set-if-absent: a present key or a non-positive expiry leaves the store unchanged; otherwise exactly that key is added |
| Store.SetPxNxIdempotent | lib/Bossbat.js:235 | a second set-if-absent on an armed key changes nothing, whatever value and expiry it carries |
| Store.Del | lib/Bossbat.js:114 | the key is gone and every other key keeps its entry |
| Store.DelIfValue | lib/Bossbat.js:183 | the lock is deleted only while it still holds the releasing owner's token |
| Store.Expire | lib/Bossbat.js:68 | only a present key can expire; it leaves the store and its own name is published |
| Chain.RunChain | lib/Bossbat.js:174-179 | the work runs iff every middleware calls `next()`; a failed run means the work ran and failed and every middleware returned `next()`'s promise; when all call and return `next()` the result is the work's |
| Chain.FullChainOrder | lib/Bossbat.js:174-179 | with no short-circuit, and with the work succeeding or every middleware handling its failure: all pre-logic in registration order, then the work exactly once, then all post-logic in reverse order |
| Chain.FailedChainSkipsPostLogic | lib/Bossbat.js:174-179 | when the work fails and every middleware passes the failure on without handling it, all pre-logic and the work run, no post-logic runs, and the chain fails |
| Chain.SingleMiddlewareOrder | lib/__tests__/Bossbat.test.js:102-125 | a single middleware's pre-logic precedes the work; its post-logic follows the work unless the work failed and the middleware does not handle that |
| Chain.UnreturnedNextMasksFailure | lib/__tests__/Bossbat.test.js:105-112 | a middleware that calls `next()` without returning its promise still runs the work, and the chain settles successfully even when the work fails; its post-logic then runs iff it handles the failure |
| Scheduler.Recurring | lib/Bossbat.js:103 | a definition is recurring iff `every` or `cron` is truthy |
| Scheduler.ResolveDelay | lib/Bossbat.js:210-234 | a truthy numeric `every` is used verbatim; a string goes to the parser; any other truthy `every` is an error naming its type; otherwise `cron` gives its first delay if positive, else its second; no truthy field means no timeout |
| Scheduler.ScheduleRun | lib/Bossbat.js:204-236 | a demand always succeeds and arms the demand key with TTL 1 if absent; errors arise exactly from delay resolution and arm nothing; success adds at most the target key, with the job name and a positive TTL, and an armed target leaves the store unchanged |
| Scheduler.ScheduleRunArmsResolvedDelay | lib/Bossbat.js:235 | a fresh timer key is armed with exactly the resolved delay, or not at all when it is not positive |
| Scheduler.StringAndNumberIntervalsAgree | lib/Bossbat.js:211-218 | `every: "200 ms"` and `every: 200` schedule identically when the parser reads 200 |
| Scheduler.EveryShadowsCron | lib/Bossbat.js:211-222 | a truthy `every` makes the delay independent of `cron` and of the cron evaluator |
| Scheduler.CronSecondDelayUnchecked | lib/Bossbat.js:225-235 | for any store and worker, when both computed cron delays are non-positive, the second is used and `scheduleRun` arms nothing |
| Bossbat.NewWorker | lib/Bossbat.js:39-61 | `prefix` defaults to `bossbat` and `ttl` to 2000 only when left undefined; registry and middleware list start empty |
| Bossbat.Hire | lib/Bossbat.js:101-106 | the registry maps the name to the new definition, even on error; a non-recurring job leaves the store unchanged; an error arms nothing; otherwise only the timer key may be added, and an absent timer key of a recurring job with a positive resolved delay is armed with the name and exactly that delay; a non-positive resolved delay arms nothing; an armed timer is not touched |
| Bossbat.HireRejectsObjectInterval | lib/__tests__/Bossbat.test.js:265-271 | `hire` with `every: {}` raises an unknown-interval error naming `object` and arms nothing |
| Bossbat.Fire | lib/Bossbat.js:113-114 | exactly the timer key is removed; every other key keeps its entry |
| Bossbat.Demand | lib/Bossbat.js:131-133 | the demand key is armed with TTL 1 if absent; the job's timer key is left as it was |
| Bossbat.Qa | lib/Bossbat.js:122-123 | the middleware is appended at the end and earlier entries keep their order |
| Bossbat.QaRegistrationOrder | lib/__tests__/Bossbat.test.js:44-50 | two `qa` calls on a fresh worker give `[fn1, fn2]`, whatever the middlewares do |
| Bossbat.QaChainNesting | lib/Bossbat.js:174-179 | two registered middlewares that call `next()` run the first around the second around the work, with both post-logics when the work succeeds or both handle its failure |
| Bossbat.Quit | lib/Bossbat.js:91-92 | the registry is empty and the rest of the worker is unchanged |
| Bossbat.QuitSilencesRouter | lib/Bossbat.js:92 | with the corrected router, every expiry after `quit` is ignored |
| Bossbat.QuitKeepsInheritedNamesAsWritten | lib/Bossbat.js:92 | as written, the fresh `{}` that `quit` installs still answers `toString`, so `<prefix>:work:toString` is dispatched after `quit` |
| Bossbat.Route | lib/Bossbat.js:71-84 | a key is dispatched iff it decodes to a hired name, and re-arming is requested iff that definition is recurring |
| Bossbat.RouteAsWritten | lib/Bossbat.js:75 | the registry test as written dispatches a decoded name iff it is hired, a truthy field of a definition hired as `__proto__`, or a member of `Object.prototype`; only a hired recurring name is re-armed |
| Bossbat.ProtoHireDispatchesWorkAsWritten | lib/Bossbat.js:102 | after hiring a job named `__proto__`, `<prefix>:work:work` is dispatched as written though no job `work` was hired, and ignored by the corrected router |
| Bossbat.InheritedNameDispatchedAsWritten | lib/Bossbat.js:75-78 | a worker that never hired `toString` still dispatches `<prefix>:work:toString` as written; the corrected router ignores it |
| Bossbat.RoutersAgreeOnOrdinaryNames | lib/Bossbat.js:75-84 | outside the names inherited from `Object.prototype` or from a definition hired as `__proto__`, the written and corrected routers agree |
| Bossbat.TryLock | lib/Bossbat.js:173 | a single attempt wins iff the lock key is absent (and the TTL positive); a lost attempt changes nothing; a won one adds exactly the lock entry |
| Bossbat.DoWork | lib/Bossbat.js:170-196 | the chain runs iff the lock was free; it runs on the hired definition; afterwards the store is as before on both the success and the failure path |
| Bossbat.HeldLockBlocksWork | lib/Bossbat.js:190-195 | while the lock is held, `doWork` runs nothing and changes nothing |
| Bossbat.LockReleasedOnBothPaths | lib/Bossbat.js:181-189 | after a won run the lock key is absent whether the work succeeded or failed |
| Bossbat.Handle | lib/Bossbat.js:69-85 | an ignored key changes nothing; a dispatched one makes exactly one lock attempt, wins iff the lock was free, and never overwrites an existing key |
| Bossbat.NonWorkMessageIgnored | lib/Bossbat.js:71 | a key outside `<prefix>:work:` makes no lock attempt and no store change |
| Bossbat.LockExpiryIgnored | lib/Bossbat.js:159-166 | an expiring lock key is ignored by the router |
| Bossbat.UnhiredNameIgnored | lib/Bossbat.js:75 | a decoded name that is not hired is ignored |
| Bossbat.HiredNameDispatched | lib/Bossbat.js:75-84 | a hired name gives one lock attempt; re-arming happens iff recurring and matches `scheduleRun` on the original store whether or not the lock was won |
| Bossbat.FiredJobStillDemandable | lib/Bossbat.js:113-114 | after `fire` the job is still hired, and its demand key is armed and dispatched |
| Bossbat.FiredTimerNeverExpires | lib/__tests__/Bossbat.test.js:169-184 | after `fire` the job's timer cannot expire |
| Bossbat.DemandCoexistsWithTimer | lib/__tests__/Bossbat.test.js:208-224 | a demand leaves an armed timer in place and both keys dispatch the job |
| Bossbat.DemandPrefixedTimerMisrouted | lib/Bossbat.js:73 | the timer of job `demand:x` is ignored when `x` is not hired |
| Bossbat.LatestHireWins | lib/Bossbat.js:102 | re-hiring replaces the definition, and the next run executes the latest work |
| Bossbat.HireRepeat | lib/__tests__/Bossbat.test.js:131-144 | any number of hires of one definition leaves it as the registry entry |
| Bossbat.RepeatedHireKeepsOneTimer | lib/__tests__/Bossbat.test.js:127-145 | any number of hires of one definition leave the store exactly as the first hire left it |
| Race.Deliver | lib/Bossbat.js:79-82 | delivering one expiry to all workers never overwrites an existing key, and only dispatching workers can win |
| Race.SingleWinner | lib/__tests__/Bossbat.test.js:147-167 | among workers sharing a prefix, at most one wins per expiry; none if the lock is held; exactly one if it is free and some worker hired the job |
| Race.ReleaseBeforeLateAttemptRunsTwice | lib/Bossbat.js:181-189 | a release that lands before a late attempt lets a second worker win the same occurrence |
| Race.OccurrenceRunsOnce | lib/Bossbat.js:69-84 | an armed timer expiring with the lock free and the job hired somewhere gives exactly one winner |

## Findings

| source | as written | input that shows it | evidently intended | confidence | as-written member | corrected member |
|---|---|---|---|---|---|---|
| lib/Bossbat.js:75 | `if (this.jobs[jobName])` reads a property of a plain `{}`, so inherited members such as `toString` or `constructor` count as hired, and after `hire('__proto__', def)` so do the truthy fields of `def` | key `bossbat:work:toString` expires on a worker that never hired `toString`, for example because a peer hired it or someone demanded it; that worker races for the lock and may win an occurrence it cannot run | only names stored by `hire` are dispatched | not executed; medium | Bossbat.RouteAsWritten | Bossbat.Route |

`Bossbat.InheritedNameDispatchedAsWritten` exhibits the input. The rest of the
model uses `Bossbat.Route`.

## Left out

- Redis connections, `config SET notify-keyspace-events`, `subscribe`, and the connection teardown in `quit`: I/O. The store is an abstract map with explicit expiry events.
- Wall-clock TTL countdown and `Date.now()`: time is not modelled. Expiry is an event the environment chooses, and the clock reaches the cron delays only through `Env`.
- The `timestring` duration parser and the `cron-parser` evaluator: foreign libraries. They are `Env` functions; a parser that throws yields `None` or `CronRejected`.
- The redlock protocol: quorum, clock drift, random token generation and lock extension are not modelled. A lock is one set-if-absent of a caller-given token, and release is compare-and-delete.
- `throwback.compose` internals: a middleware is only an identity and three flags, saying whether it calls `next()`, whether it returns the promise `next()` gave it, and whether its post-logic handles a failure of `next()`. Errors raised by a middleware itself and changes a middleware makes to its copy of the definition are not modelled. Since definitions are immutable values, the copy is implicit.
- Promise scheduling: a worker's handler is one atomic step. The work and the lock release happen in a later step (`Store.DelIfValue`), and `Race.Deliver` orders the workers' steps.
- Bossbat.DoWork: runs the lock, chain and release as one step. Interleaving with other workers is covered separately by `Race`. When a middleware does not return `next()`'s promise, the source releases the lock as soon as that middleware's own body returns, possibly before the work settles; the single step does not show that early release.
- Bossbat.DoWork: requires the name to be hired, because the source calls `doWork` only after the router's registry check.
- Numbers and BigInts are integers: `NaN`, `Infinity`, `-0`, fractional intervals and Redis's 64-bit range limit are not modelled. A BigInt `every` is truthy unless zero and raises an unknown-interval error naming `bigint`, as `Scheduler.ResolveDelay` states for every non-string, non-number value.
- `hire` with a `null` or `undefined` definition, which fails with a `TypeError` after writing the registry, is not modelled.
- The `tz`, `connection` and `disableRedisConfig` options, and the Babel helpers, are not modelled.
- Bossbat.Handle: when re-arming raises inside the message listener, the model returns a failure outcome. The model does not say what the event emitter does with that exception.
- Bossbat.RouteAsWritten: only the router's decision is modelled. What the lock winner then does with an inherited member as its definition depends on `throwback` and is left out.
- Bossbat.Handle: its contract is stated over the corrected `Bossbat.Route`. The as-written router also dispatches inherited names such as `toString`, including after `quit` (`Bossbat.QuitKeepsInheritedNamesAsWritten`).
- Race.SingleWinner: the workers route with the corrected `Bossbat.Route`. As written, workers that never hired an inherited name such as `toString` also race for its lock; still at most one of them wins, because the lock is the same key.
- Chain.RunChain: a middleware that handles a failure of `next()` and also returns `next()`'s chain is taken to pass the failure on, as `finally` does; one that swallows the failure is described by the flag that it does not return `next()`'s promise. A handler that itself throws is not modelled.
- Bossbat.RouteAsWritten: a definition hired as `__proto__` contributes only its `every`, `cron` and `work` fields; other fields a caller puts on a definition are not modelled. An object-valued `every` or `cron` reached as a registry entry this way is taken to carry no truthy `every` or `cron` of its own, so it is not re-armed.
- Bossbat.RouteAsWritten: every definition is assumed to carry a `work` function. A definition without `work` (such as `{ every: {} }`) hired as `__proto__` would not make `<prefix>:work:work` dispatch, but the model dispatches it.

=== FILE: bossbat.dfy ===
/** One `Bossbat` worker: its job registry, its middleware list, and the
    transitions its public calls and its expiry-message router make on the
    shared store. Every transition is a pure function from the old worker and
    store to the new ones. */
module Bossbat {
  import opened Values
  import opened Keys
  import opened Store
  import opened Chain
  import opened Scheduler

  /** Lock time-to-live in milliseconds when none is configured. */
  const JobTtl := 2000
  /** Key namespace when none is configured. */
  const JobPrefix := "bossbat"

  datatype Worker = Worker(prefix: string, ttl: int, jobs: map<string, JobDef>, qas: seq<Middleware>)

  /** The constructor's recorded options: `prefix` and `ttl` default only when
      left undefined; the registry and the middleware list start empty. */
  function NewWorker(prefix: Option<string>, ttl: Option<int>): (w: Worker)
    ensures w.prefix == (if prefix.Some? then prefix.value else "bossbat")
    ensures w.ttl == (if ttl.Some? then ttl.value else 2000)
    ensures w.jobs == map[] && w.qas == []
  {
    Worker(
      match prefix case Some(p) => p case None => JobPrefix,
      match ttl case Some(t) => t case None => JobTtl,
      map[], [])
  }

  datatype Hired = Hired(worker: Worker, store: Store, outcome: Outcome<ScheduleError>)

  /** `hire(name, definition)`. The registry entry is written first, so it is
      replaced even when scheduling then raises; a recurring definition arms
      its timer with set-if-absent, a non-recurring one leaves the store alone,
      and so does a non-positive delay, which the store refuses. */
  function Hire(w: Worker, s: Store, name: string, d: JobDef, env: Env): (r: Hired)
    ensures r.worker.jobs == w.jobs[name := d]
    ensures r.worker.prefix == w.prefix && r.worker.ttl == w.ttl && r.worker.qas == w.qas
    ensures !Recurring(d) ==> r.store == s && r.outcome.Pass?
    ensures r.outcome.Fail? ==> r.store == s
    ensures r.outcome.Fail? <==> ResolveDelay(d, env).Err?
    ensures r.outcome.Pass? ==> OnlyArms(s, r.store, JobKey(w.prefix, name), name)
    ensures JobKey(w.prefix, name) in s ==> r.store == s
    ensures Recurring(d) && JobKey(w.prefix, name) !in s
      && ResolveDelay(d, env).Ok? && ResolveDelay(d, env).value.Millis? && ResolveDelay(d, env).value.ms > 0
      ==> r.store == s[JobKey(w.prefix, name) := Entry(name, ResolveDelay(d, env).value.ms)]
    ensures ResolveDelay(d, env).Ok? && ResolveDelay(d, env).value.Millis? && ResolveDelay(d, env).value.ms <= 0
      ==> r.store == s
  {
    var w' := w.(jobs := w.jobs[name := d]);
    if Recurring(d) then
      match ScheduleRun(w.prefix, s, name, Some(d), env)
      case Ok(s') => Hired(w', s', Pass)
      case Err(e) => Hired(w', s, Fail(e))
    else
      Hired(w', s, Pass)
  }

  /** An interval that is neither a string nor a number makes `hire` raise,
      naming its type, with no key armed. */
  lemma HireRejectsObjectInterval(w: Worker, s: Store, name: string, cron: JsValue, work: nat, env: Env)
    ensures var h := Hire(w, s, name, JobDef(Obj, cron, work), env);
      h.outcome == Fail(UnknownInterval("object")) && h.store == s
  {
  }

  /** `fire(name)`: deletes the timer key and nothing else. The registry is
      not an input, so the definition stays hired. */
  function Fire(w: Worker, s: Store, name: string): (r: Store)
    ensures JobKey(w.prefix, name) !in r
    ensures forall k :: k != JobKey(w.prefix, name) ==> (k in r <==> k in s)
    ensures forall k :: k in r ==> r[k] == s[k]
  {
    Del(s, JobKey(w.prefix, name))
  }

  /** `demand(name)`: arms the demand key with a 1 ms expiry if it is absent.
      It does not consult the registry and leaves the job's timer key as it was. */
  function Demand(w: Worker, s: Store, name: string): (r: Store)
    ensures DemandKey(w.prefix, name) in s ==> r == s
    ensures DemandKey(w.prefix, name) !in s ==> r == s[DemandKey(w.prefix, name) := Entry(name, 1)]
    ensures JobKey(w.prefix, name) in r <==> JobKey(w.prefix, name) in s
    ensures JobKey(w.prefix, name) in s ==> r[JobKey(w.prefix, name)] == s[JobKey(w.prefix, name)]
  {
    KeysDistinct(w.prefix, name, name);
    ScheduleRun(w.prefix, s, name, None, Env(_ => None, _ => CronRejected)).value
  }

  /** `qa(fn)`: appends a middleware, keeping registration order. */
  function Qa(w: Worker, m: Middleware): (r: Worker)
    ensures |r.qas| == |w.qas| + 1 && r.qas[|w.qas|] == m
    ensures r.qas[..|w.qas|] == w.qas
    ensures r.prefix == w.prefix && r.ttl == w.ttl && r.jobs == w.jobs
  {
    w.(qas := w.qas + [m])
  }

  /** Two `qa` calls on a fresh worker list the middlewares in registration
      order, whatever they do. */
  lemma QaRegistrationOrder(w: Worker, m1: Middleware, m2: Middleware)
    requires w.qas == []
    ensures Qa(Qa(w, m1), m2).qas == [m1, m2]
  {
  }

  /** Two middlewares that call `next()`, registered on a fresh worker: the
      first wraps the second, which wraps the work; both post-logics run when
      the work succeeds or both handle its failure. */
  lemma QaChainNesting(w: Worker, m1: Middleware, m2: Middleware, name: string, work: nat, workOk: bool)
    requires w.qas == [] && m1.callsNext && m2.callsNext
    ensures workOk || (m1.handlesFailure && m2.handlesFailure) ==>
      RunChain(Qa(Qa(w, m1), m2).qas, name, work, workOk).steps ==
        [Before(m1.id), Before(m2.id), Work(name, work), After(m2.id), After(m1.id)]
  {
    var qas := Qa(Qa(w, m1), m2).qas;
    assert qas == [m1, m2];
    if workOk || (m1.handlesFailure && m2.handlesFailure) {
      FullChainOrder(qas, name, work, workOk);
    }
    assert qas[1..] == [m2] && qas[1..][1..] == [];
    assert Befores(qas[1..][1..]) == [];
    assert Befores(qas[1..]) == [Before(m2.id)];
    assert Befores(qas) == [Before(m1.id), Before(m2.id)];
    assert Afters(qas[1..]) == [After(m2.id)];
    assert Afters(qas) == [After(m2.id), After(m1.id)];
  }

  /** `quit()`'s effect on the worker: the registry is cleared. */
  function Quit(w: Worker): (r: Worker)
    ensures r.jobs == map[]
    ensures r.prefix == w.prefix && r.ttl == w.ttl && r.qas == w.qas
  {
    w.(jobs := map[])
  }

  /** The router's decision for one expired key. */
  datatype Action = Ignore | Dispatch(name: string, rearm: bool)

  /** The router: only `<prefix>:work:` keys whose decoded name is hired are
      dispatched; re-arming is asked for exactly when the hired definition is
      recurring. */
  function Route(w: Worker, message: string): (a: Action)
    ensures a.Dispatch? <==> WorkName(w.prefix, message).Some? && WorkName(w.prefix, message).value in w.jobs
    ensures a.Dispatch? ==> a.name == WorkName(w.prefix, message).value
    ensures a.Dispatch? ==> (a.rearm <==> Recurring(w.jobs[a.name]))
  {
    match WorkName(w.prefix, message)
    case None => Ignore
    case Some(name) =>
      if name in w.jobs then Dispatch(name, Recurring(w.jobs[name])) else Ignore
  }

  /** Names a plain `{}` answers through `Object.prototype` even when nothing
      was stored under them. */
  const InheritedNames: set<string> := {
    "constructor", "hasOwnProperty", "isPrototypeOf", "propertyIsEnumerable",
    "toLocaleString", "toString", "valueOf", "__proto__",
    "__defineGetter__", "__defineSetter__", "__lookupGetter__", "__lookupSetter__"
  }

  /** Hiring a job named `__proto__` assigns through the registry's
      `__proto__` setter: the definition becomes the registry's prototype
      instead of an own entry, and its truthy fields answer registry reads.
      Every definition is taken to carry a `work` function, which is truthy. */
  function ProtoFieldNames(w: Worker): set<string> {
    if "__proto__" in w.jobs then
      var d := w.jobs["__proto__"];
      {"work"} + (if Truthy(d.every) then {"every"} else {}) + (if Truthy(d.cron) then {"cron"} else {})
    else {}
  }

  /** The router as written: the registry test `this.jobs[jobName]` is a
      property read on a plain object, so a member inherited from the
      registry's prototype counts as a hired job. That prototype is the
      definition hired as `__proto__`, if any, then `Object.prototype`. An
      inherited member has no `every` or `cron` of its own, so it is not
      re-armed. */
  function RouteAsWritten(w: Worker, message: string): (a: Action)
    ensures a.Dispatch? <==>
      && WorkName(w.prefix, message).Some?
      && var name := WorkName(w.prefix, message).value;
         name in w.jobs || name in ProtoFieldNames(w) || name in InheritedNames
    ensures a.Dispatch? ==> a.name == WorkName(w.prefix, message).value
    ensures a.Dispatch? ==> (a.rearm <==> a.name in w.jobs && Recurring(w.jobs[a.name]))
  {
    match WorkName(w.prefix, message)
    case None => Ignore
    case Some(name) =>
      if name in w.jobs then Dispatch(name, Recurring(w.jobs[name]))
      else if name in ProtoFieldNames(w) || name in InheritedNames then Dispatch(name, false)
      else Ignore
  }

  /** A worker that never hired `toString` still races for its lock when the
      key `<prefix>:work:toString` expires, for instance because a peer hired
      that job or someone demanded it; the corrected router ignores it. */
  lemma InheritedNameDispatchedAsWritten(w: Worker)
    requires "toString" !in w.jobs
    ensures RouteAsWritten(w, JobKey(w.prefix, "toString")) == Dispatch("toString", false)
    ensures Route(w, JobKey(w.prefix, "toString")) == Ignore
  {
    JobKeyRoundTrip(w.prefix, "toString");
    assert !StartsWith("toString", DemandMarker) by {
      assert "toString"[0] != DemandMarker[0];
    }
  }

  /** Outside the inherited names the two routers agree. */
  lemma RoutersAgreeOnOrdinaryNames(w: Worker, message: string)
    requires WorkName(w.prefix, message).None?
      || (WorkName(w.prefix, message).value !in InheritedNames && WorkName(w.prefix, message).value !in ProtoFieldNames(w))
    ensures RouteAsWritten(w, message) == Route(w, message)
  {
  }

  /** After a job named `__proto__` is hired, the key `<prefix>:work:work` is
      dispatched as written although no job `work` was hired; the corrected
      router ignores it. */
  lemma ProtoHireDispatchesWorkAsWritten(w: Worker, s: Store, d: JobDef, env: Env)
    requires "work" !in w.jobs
    ensures var w' := Hire(w, s, "__proto__", d, env).worker;
      && RouteAsWritten(w', JobKey(w.prefix, "work")) == Dispatch("work", false)
      && Route(w', JobKey(w.prefix, "work")) == Ignore
  {
    JobKeyRoundTrip(w.prefix, "work");
    assert !StartsWith("work", DemandMarker) by {
      assert "work"[0] != DemandMarker[0];
    }
  }

  datatype LockAttempt = LockAttempt(store: Store, won: bool)

  /** One redlock attempt with zero retries: set the lock key to the caller's
      token if it is absent. A held lock makes the attempt fail without effect. */
  function TryLock(s: Store, key: string, token: string, ttl: int): (r: LockAttempt)
    ensures r.won <==> key !in s && ttl > 0
    ensures !r.won ==> r.store == s
    ensures r.won ==> r.store == s[key := Entry(token, ttl)]
  {
    var s' := SetPxNx(s, key, token, ttl);
    LockAttempt(s', key !in s && ttl > 0)
  }

  datatype WorkDone = WorkDone(store: Store, run: Option<ChainRun>)

  /** `doWork(name)` run to completion without interleaving: a lost lock race
      does nothing; the winner runs the middleware chain on the hired
      definition and releases the lock whether the run succeeded or failed,
      leaving the store as it found it. */
  function DoWork(w: Worker, s: Store, name: string, token: string, workOk: bool): (r: WorkDone)
    requires name in w.jobs
    ensures r.run.Some? <==> LockKey(w.prefix, name) !in s && w.ttl > 0
    ensures r.store == s
    ensures r.run.Some? ==> r.run.value == RunChain(w.qas, name, w.jobs[name].work, workOk)
  {
    var key := LockKey(w.prefix, name);
    var lock := TryLock(s, key, token, w.ttl);
    if lock.won then
      var run := RunChain(w.qas, name, w.jobs[name].work, workOk);
      WorkDone(DelIfValue(lock.store, key, token), Some(run))
    else
      WorkDone(s, None)
  }

  datatype Handled = Handled(store: Store, attempted: bool, lockWon: bool, outcome: Outcome<ScheduleError>)

  /** The subscriber's `message` handler: for a dispatched name, one lock
      attempt (the start of `doWork`) and then, for a recurring definition,
      `scheduleRun`. The work itself and the lock release settle later. */
  function Handle(w: Worker, s: Store, message: string, token: string, env: Env): (r: Handled)
    ensures Route(w, message).Ignore? ==> r == Handled(s, false, false, Pass)
    ensures r.attempted <==> Route(w, message).Dispatch?
    ensures r.lockWon ==> r.attempted
    ensures forall k :: k in s ==> k in r.store && r.store[k] == s[k]
    ensures r.attempted ==> var lk := LockKey(w.prefix, Route(w, message).name);
      && (r.lockWon <==> lk !in s && w.ttl > 0)
      && (lk in r.store <==> lk in s || r.lockWon)
  {
    match Route(w, message)
    case Ignore => Handled(s, false, false, Pass)
    case Dispatch(name, rearm) =>
      KeysDistinct(w.prefix, name, name);
      var lock := TryLock(s, LockKey(w.prefix, name), token, w.ttl);
      if rearm then
        match ScheduleRun(w.prefix, lock.store, name, Some(w.jobs[name]), env)
        case Ok(s') => Handled(s', true, lock.won, Pass)
        case Err(e) => Handled(lock.store, true, lock.won, Fail(e))
      else
        Handled(lock.store, true, lock.won, Pass)
  }

  /** A message outside `<prefix>:work:`, and in particular any lock key,
      makes no lock attempt and leaves the store unchanged. */
  lemma NonWorkMessageIgnored(w: Worker, s: Store, message: string, token: string, env: Env)
    requires !StartsWith(message, w.prefix + WorkSegment)
    ensures Handle(w, s, message, token, env) == Handled(s, false, false, Pass)
  {
  }

  lemma LockExpiryIgnored(w: Worker, s: Store, name: string, token: string, env: Env)
    ensures Handle(w, s, LockKey(w.prefix, name), token, env) == Handled(s, false, false, Pass)
  {
    LockKeyNeverRoutes(w.prefix, name);
  }

  /** A decoded name that is not hired is ignored silently. */
  lemma UnhiredNameIgnored(w: Worker, s: Store, message: string, token: string, env: Env)
    requires WorkName(w.prefix, message).Some? && WorkName(w.prefix, message).value !in w.jobs
    ensures Handle(w, s, message, token, env) == Handled(s, false, false, Pass)
  {
  }

  /** For a hired name the handler makes exactly one lock attempt, wins it
      iff the lock is free, and re-arms iff the definition is recurring: the
      store then holds exactly what the lock attempt followed by
      `scheduleRun` on the ORIGINAL store would give, whether the lock was
      won or lost. */
  lemma {:induction false} HiredNameDispatched(w: Worker, s: Store, name: string, message: string, token: string, env: Env)
    requires WorkName(w.prefix, message) == Some(name) && name in w.jobs
    ensures var h := Handle(w, s, message, token, env);
      && h.attempted
      && (h.lockWon <==> LockKey(w.prefix, name) !in s && w.ttl > 0)
      && (!Recurring(w.jobs[name]) ==> h.store == TryLock(s, LockKey(w.prefix, name), token, w.ttl).store)
      && (Recurring(w.jobs[name]) ==>
            var sched := ScheduleRun(w.prefix, s, name, Some(w.jobs[name]), env);
            (h.outcome.Pass? <==> sched.Ok?) &&
            (sched.Ok? ==> h.store - {LockKey(w.prefix, name)} == sched.value - {LockKey(w.prefix, name)}))
  {
    var lk := LockKey(w.prefix, name);
    var jk := JobKey(w.prefix, name);
    KeysDistinct(w.prefix, name, name);
    var lock := TryLock(s, lk, token, w.ttl);
    if Recurring(w.jobs[name]) {
      var d := w.jobs[name];
      var sched := ScheduleRun(w.prefix, s, name, Some(d), env);
      var sched' := ScheduleRun(w.prefix, lock.store, name, Some(d), env);
      assert sched.Ok? <==> sched'.Ok?;
      if sched.Ok? {
        assert jk in lock.store <==> jk in s;
        assert sched'.value - {lk} == sched.value - {lk};
      }
    }
  }

  /** `fire` leaves the registry alone: a fired job is still hired and a later
      demand still dispatches it. */
  lemma FiredJobStillDemandable(w: Worker, s: Store, name: string, token: string, env: Env)
    requires name in w.jobs
    ensures Route(w, DemandKey(w.prefix, name)) == Dispatch(name, Recurring(w.jobs[name]))
    ensures DemandKey(w.prefix, name) in Demand(w, Fire(w, s, name), name)
  {
    DemandKeyRoundTrip(w.prefix, name);
  }

  /** After `fire`, the job's timer cannot expire any more. */
  lemma FiredTimerNeverExpires(w: Worker, s: Store, name: string)
    ensures Expire(Fire(w, s, name), JobKey(w.prefix, name)).1 == None
  {
  }

  /** A demand and an armed timer coexist, and each expiry dispatches the job
      (for a name that does not begin with `demand:`). */
  lemma DemandCoexistsWithTimer(w: Worker, s: Store, name: string)
    requires name in w.jobs && JobKey(w.prefix, name) in s
    requires !StartsWith(name, DemandMarker)
    ensures var s' := Demand(w, s, name);
      JobKey(w.prefix, name) in s' && DemandKey(w.prefix, name) in s'
    ensures Route(w, JobKey(w.prefix, name)).Dispatch? && Route(w, JobKey(w.prefix, name)).name == name
    ensures Route(w, DemandKey(w.prefix, name)).Dispatch? && Route(w, DemandKey(w.prefix, name)).name == name
  {
    JobKeyRoundTrip(w.prefix, name);
    DemandKeyRoundTrip(w.prefix, name);
  }

  /** The recurring job `demand:x` never runs on its own schedule unless a job
      `x` is also hired: its timer is dispatched to `x`, or ignored. */
  lemma DemandPrefixedTimerMisrouted(w: Worker, x: string)
    requires DemandMarker + x in w.jobs && x !in w.jobs
    ensures Route(w, JobKey(w.prefix, DemandMarker + x)) == Ignore
  {
    DemandKeyIsJobKey(w.prefix, x);
    DemandKeyRoundTrip(w.prefix, x);
  }

  /** With the corrected router, every expiry after `quit` is ignored. */
  lemma QuitSilencesRouter(w: Worker, message: string)
    ensures Route(Quit(w), message) == Ignore
  {
  }

  /** As written, `quit` resets the registry to a fresh `{}`, which still
      answers the inherited names: a worker that has quit still dispatches
      `<prefix>:work:toString` if the key reaches it. */
  lemma QuitKeepsInheritedNamesAsWritten(w: Worker)
    ensures RouteAsWritten(Quit(w), JobKey(w.prefix, "toString")) == Dispatch("toString", false)
  {
    InheritedNameDispatchedAsWritten(Quit(w));
  }

  /** While the lock is held, `doWork` fails without effect: no work runs and
      the store is untouched. */
  lemma HeldLockBlocksWork(w: Worker, s: Store, name: string, token: string, workOk: bool)
    requires name in w.jobs && LockKey(w.prefix, name) in s
    ensures DoWork(w, s, name, token, workOk) == WorkDone(s, None)
  {
  }

  /** The winner's lock is gone after the run on both the success and the
      failure path, so the next occurrence can take it again. */
  lemma LockReleasedOnBothPaths(w: Worker, s: Store, name: string, token: string)
    requires name in w.jobs && LockKey(w.prefix, name) !in s && w.ttl > 0
    ensures DoWork(w, s, name, token, true).run.Some? && DoWork(w, s, name, token, false).run.Some?
    ensures LockKey(w.prefix, name) !in DoWork(w, s, name, token, true).store
    ensures LockKey(w.prefix, name) !in DoWork(w, s, name, token, false).store
  {
  }

  /** Re-hiring the same name replaces its definition, and the next dispatch
      runs the latest work. */
  lemma LatestHireWins(w: Worker, s: Store, name: string, d1: JobDef, d2: JobDef, env1: Env, env2: Env, token: string, workOk: bool)
    requires AllCallNext(w.qas)
    ensures var h1 := Hire(w, s, name, d1, env1);
      var h2 := Hire(h1.worker, h1.store, name, d2, env2);
      h2.worker.jobs[name] == d2 &&
      (LockKey(w.prefix, name) !in h2.store && w.ttl > 0 ==>
        Work(name, d2.work) in DoWork(h2.worker, h2.store, name, token, workOk).run.value.steps)
  {
  }

  /** `hire` repeated k times with the same recurring definition. */
  function HireRepeat(w: Worker, s: Store, name: string, d: JobDef, env: Env, k: nat): (r: Hired)
    ensures r.worker.jobs == (if k == 0 then w.jobs else w.jobs[name := d])
    decreases k
  {
    if k == 0 then Hired(w, s, Pass)
    else
      var h := Hire(w, s, name, d, env);
      if k == 1 then h else HireRepeat(h.worker, h.store, name, d, env, k - 1)
  }

  /** Hiring the same job many times leaves the store as the first hire left
      it: at most one timer key, its expiry not pushed back. */
  lemma {:induction false} RepeatedHireKeepsOneTimer(w: Worker, s: Store, name: string, d: JobDef, env: Env, k: nat)
    requires k >= 1
    ensures HireRepeat(w, s, name, d, env, k).store == Hire(w, s, name, d, env).store
    decreases k
  {
    if k > 1 {
      var h := Hire(w, s, name, d, env);
      var h2 := Hire(h.worker, h.store, name, d, env);
      assert h2.store == h.store;
      if k > 2 {
        RepeatedHireKeepsOneTimer(h.worker, h.store, name, d, env, k - 1);
      }
    }
  }
}

=== FILE: chain.dfy ===
/** The QA middleware chain wrapped around every job's work: the registered
    middlewares in registration order, outermost first, with the job's work as
    the terminal step. A middleware either calls `next()` (its pre-logic runs
    before, its post-logic once everything inside it settles) or omits the
    call and so cuts the chain short. Its post-logic is the code it chains
    after `next()`: that code runs after a failure inside only when the
    middleware handles the rejection (`handlesFailure`), as a `catch` or a
    `finally` does; `next().then(post)` and `await next(); post()` skip it. A
    middleware that calls `next()` but does not return the promise it got
    back (as in `next().then(…)` with no `return`) settles as soon as its own
    body returns, successfully, whatever the rest of the chain does. */
module Chain {

  datatype Middleware = Middleware(id: nat, callsNext: bool, returnsNext: bool, handlesFailure: bool)

  /** Observable steps of one chain run: a middleware's pre-logic, the work,
      and a middleware's post-logic. A middleware that does not call `next()`
      runs its whole body, shown as its pre-logic followed by its post-logic. */
  datatype Step = Before(id: nat) | Work(name: string, work: nat) | After(id: nat)

  /** A run's steps and whether it settled successfully. */
  datatype ChainRun = ChainRun(steps: seq<Step>, ok: bool)

  /** Runs the chain for job `name` whose work is `work`; `workOk` is whether
      the work itself settles successfully. A failure travels back up only
      through middlewares that return `next()`'s promise. */
  function RunChain(qas: seq<Middleware>, name: string, work: nat, workOk: bool): (r: ChainRun)
    ensures Work(name, work) in r.steps <==> AllCallNext(qas)
    ensures !r.ok ==> AllCallNext(qas) && AllReturnNext(qas) && !workOk
    ensures AllCallNext(qas) && AllReturnNext(qas) ==> r.ok == workOk
    decreases |qas|
  {
    if |qas| == 0 then ChainRun([Work(name, work)], workOk)
    else
      var m := qas[0];
      if m.callsNext then
        var inner := RunChain(qas[1..], name, work, workOk);
        assert AllCallNext(qas) <==> AllCallNext(qas[1..]);
        assert AllReturnNext(qas) <==> m.returnsNext && AllReturnNext(qas[1..]);
        var post := if inner.ok || m.handlesFailure then [After(m.id)] else [];
        ChainRun([Before(m.id)] + inner.steps + post, if m.returnsNext then inner.ok else true)
      else
        ChainRun([Before(m.id), After(m.id)], true)
  }

  predicate AllCallNext(qas: seq<Middleware>) {
    forall i :: 0 <= i < |qas| ==> qas[i].callsNext
  }

  predicate AllReturnNext(qas: seq<Middleware>) {
    forall i :: 0 <= i < |qas| ==> qas[i].returnsNext
  }

  predicate AllHandleFailure(qas: seq<Middleware>) {
    forall i :: 0 <= i < |qas| ==> qas[i].handlesFailure
  }

  predicate NoneHandleFailure(qas: seq<Middleware>) {
    forall i :: 0 <= i < |qas| ==> !qas[i].handlesFailure
  }

  /** Pre-logic of every middleware, outermost first. */
  function Befores(qas: seq<Middleware>): seq<Step>
    decreases |qas|
  {
    if |qas| == 0 then [] else [Before(qas[0].id)] + Befores(qas[1..])
  }

  /** Post-logic of every middleware, innermost first. */
  function Afters(qas: seq<Middleware>): seq<Step>
    decreases |qas|
  {
    if |qas| == 0 then [] else Afters(qas[1..]) + [After(qas[0].id)]
  }

  /** When no middleware short-circuits and the work succeeds (or every
      middleware handles failure), all pre-logic runs in registration order,
      then the work exactly once, then all post-logic in reverse order. */
  lemma {:induction false} FullChainOrder(qas: seq<Middleware>, name: string, work: nat, workOk: bool)
    requires AllCallNext(qas)
    requires workOk || AllHandleFailure(qas)
    ensures RunChain(qas, name, work, workOk).steps == Befores(qas) + [Work(name, work)] + Afters(qas)
    decreases |qas|
  {
    if |qas| > 0 {
      assert AllCallNext(qas[1..]);
      assert workOk || AllHandleFailure(qas[1..]);
      FullChainOrder(qas[1..], name, work, workOk);
    }
  }

  /** When the work fails and the failure travels back through every
      middleware, none of which handles it, all pre-logic and the work run
      but no post-logic does. */
  lemma {:induction false} FailedChainSkipsPostLogic(qas: seq<Middleware>, name: string, work: nat)
    requires AllCallNext(qas) && AllReturnNext(qas) && NoneHandleFailure(qas)
    ensures RunChain(qas, name, work, false).steps == Befores(qas) + [Work(name, work)]
    ensures !RunChain(qas, name, work, false).ok
    decreases |qas|
  {
    if |qas| > 0 {
      var rest := qas[1..];
      assert AllCallNext(rest) && AllReturnNext(rest) && NoneHandleFailure(rest);
      FailedChainSkipsPostLogic(rest, name, work);
      assert RunChain(qas, name, work, false).steps == [Before(qas[0].id)] + (Befores(rest) + [Work(name, work)]);
    }
  }

  /** With a single middleware that calls `next()`, its pre-logic completes
      before the work starts, and its post-logic follows the settled work
      unless the work failed and the middleware does not handle that. */
  lemma SingleMiddlewareOrder(m: Middleware, name: string, work: nat, workOk: bool)
    requires m.callsNext
    ensures RunChain([m], name, work, workOk).steps ==
      [Before(m.id), Work(name, work)] + (if workOk || m.handlesFailure then [After(m.id)] else [])
  {
    assert [m][1..] == [];
  }

  /** A middleware that calls `next()` without returning its promise hides
      the work's failure: the chain still runs the work, and settles as a
      success; its post-logic runs only if it handles the failure. */
  lemma UnreturnedNextMasksFailure(m: Middleware, name: string, work: nat)
    requires m.callsNext && !m.returnsNext
    ensures Work(name, work) in RunChain([m], name, work, false).steps
    ensures RunChain([m], name, work, false).ok
    ensures After(m.id) in RunChain([m], name, work, false).steps <==> m.handlesFailure
  {
    assert [m][1..] == [];
  }
}

=== FILE: keys.dfy ===
/** Store key naming (`getJobKey`, `getDemandKey`, `getLockKey`) and the
    router's reverse mapping from an expired key back to a job name. */
module Keys {
  import opened Values

  const WorkSegment := ":work:"
  const DemandMarker := "demand:"
  const DemandSegment := ":work:demand:"
  const LockSegment := ":lock:"

  predicate StartsWith(s: string, p: string) {
    |p| <= |s| && s[..|p|] == p
  }

  /** `<prefix>:work:<name>`: the recurring timer of a job. */
  function JobKey(prefix: string, name: string): (k: string)
    ensures |k| == |prefix| + |WorkSegment| + |name|
    ensures k[..|prefix|] == prefix && k[|prefix|..|prefix| + |WorkSegment|] == WorkSegment
    ensures k[|prefix| + |WorkSegment|..] == name
  {
    prefix + WorkSegment + name
  }

  /** `<prefix>:work:demand:<name>`: a one-off demanded run. */
  function DemandKey(prefix: string, name: string): (k: string)
    ensures |k| == |prefix| + |DemandSegment| + |name|
    ensures k[..|prefix|] == prefix && k[|prefix|..|prefix| + |DemandSegment|] == DemandSegment
    ensures k[|prefix| + |DemandSegment|..] == name
  {
    prefix + DemandSegment + name
  }

  /** `<prefix>:lock:<name>`: the execution lock of a job. */
  function LockKey(prefix: string, name: string): (k: string)
    ensures |k| == |prefix| + |LockSegment| + |name|
    ensures k[..|prefix|] == prefix && k[|prefix|..|prefix| + |LockSegment|] == LockSegment
    ensures k[|prefix| + |LockSegment|..] == name
  {
    prefix + LockSegment + name
  }

  /** The router's decoding of an expired key: keys outside `<prefix>:work:`
      carry no job; the demand segment is stripped when present, otherwise
      the timer segment is. The result is always the tail of the message
      after one of the two segments. */
  function WorkName(prefix: string, message: string): (r: Option<string>)
    ensures r.Some? <==> StartsWith(message, prefix + WorkSegment)
    ensures r.Some? ==>
      message == prefix + DemandSegment + r.value || message == prefix + WorkSegment + r.value
    ensures r.Some? && StartsWith(message, prefix + DemandSegment) ==>
      message == prefix + DemandSegment + r.value
  {
    if !StartsWith(message, prefix + WorkSegment) then None
    else if StartsWith(message, prefix + DemandSegment) then
      Some(message[|prefix + DemandSegment|..])
    else
      Some(message[|prefix + WorkSegment|..])
  }

  lemma ConcatPrefix(a: string, b: string)
    ensures StartsWith(a + b, a)
    ensures (a + b)[|a|..] == b
  {
    assert (a + b)[..|a|] == a;
  }

  /** Two strings sharing a head compare on their tails. */
  lemma StartsWithCommonHead(x: string, y: string, z: string)
    ensures StartsWith(x + y, x + z) <==> StartsWith(y, z)
  {
    if |z| <= |y| {
      assert (x + y)[..|x + z|] == x + y[..|z|];
      if (x + y)[..|x + z|] == x + z {
        assert forall i :: 0 <= i < |z| ==> y[..|z|][i] == (x + z)[|x| + i];
        assert y[..|z|] == z;
      }
    }
  }

  lemma DemandSegmentExtendsWork(prefix: string)
    ensures prefix + DemandSegment == (prefix + WorkSegment) + DemandMarker
  {
    assert DemandSegment == WorkSegment + DemandMarker;
  }

  /** A demand key lives under the timer namespace: it is the timer key of
      the name with `demand:` in front. This is where the ambiguity comes from. */
  lemma DemandKeyIsJobKey(prefix: string, name: string)
    ensures DemandKey(prefix, name) == JobKey(prefix, DemandMarker + name)
  {
    DemandSegmentExtendsWork(prefix);
  }

  /** Every name, colons included, round-trips through its demand key. */
  lemma DemandKeyRoundTrip(prefix: string, name: string)
    ensures WorkName(prefix, DemandKey(prefix, name)) == Some(name)
  {
    var k := DemandKey(prefix, name);
    DemandKeyIsJobKey(prefix, name);
    assert k == (prefix + WorkSegment) + (DemandMarker + name);
    ConcatPrefix(prefix + WorkSegment, DemandMarker + name);
    assert k == (prefix + DemandSegment) + name;
    ConcatPrefix(prefix + DemandSegment, name);
  }

  /** A timer key decodes to its own name exactly when the name does not
      begin with `demand:`; otherwise the router drops that marker too, so the
      timer of job `demand:x` is read as a demand for job `x`. */
  lemma JobKeyRoundTrip(prefix: string, name: string)
    ensures WorkName(prefix, JobKey(prefix, name)) == Some(name) <==> !StartsWith(name, DemandMarker)
    ensures StartsWith(name, DemandMarker) ==>
      WorkName(prefix, JobKey(prefix, name)) == Some(name[|DemandMarker|..])
  {
    var k := JobKey(prefix, name);
    ConcatPrefix(prefix + WorkSegment, name);
    DemandSegmentExtendsWork(prefix);
    StartsWithCommonHead(prefix + WorkSegment, name, DemandMarker);
    if StartsWith(name, DemandMarker) {
      var rest := name[|DemandMarker|..];
      assert name == DemandMarker + rest;
      DemandKeyIsJobKey(prefix, rest);
      DemandKeyRoundTrip(prefix, rest);
      assert |rest| < |name|;
    }
  }

  /** The router never mistakes a lock key for work: lock keys are ignored. */
  lemma LockKeyNeverRoutes(prefix: string, name: string)
    ensures WorkName(prefix, LockKey(prefix, name)) == None
  {
    var k := LockKey(prefix, name);
    assert k[|prefix| + 1] == 'l';
    assert (prefix + WorkSegment)[|prefix| + 1] == 'w';
  }

  /** Timer keys are distinct per name and never collide with lock keys;
      a timer key equals a demand key only for the `demand:`-prefixed name. */
  lemma KeysDistinct(prefix: string, n: string, m: string)
    ensures JobKey(prefix, n) == JobKey(prefix, m) <==> n == m
    ensures JobKey(prefix, n) != LockKey(prefix, m)
    ensures DemandKey(prefix, n) != LockKey(prefix, m)
    ensures DemandKey(prefix, n) == JobKey(prefix, m) <==> m == DemandMarker + n
    ensures DemandKey(prefix, n) != JobKey(prefix, n)
  {
    ConcatPrefix(prefix + WorkSegment, n);
    ConcatPrefix(prefix + WorkSegment, m);
    assert JobKey(prefix, n)[|prefix| + 1] == 'w';
    assert LockKey(prefix, m)[|prefix| + 1] == 'l';
    DemandKeyIsJobKey(prefix, n);
    assert DemandKey(prefix, n)[|prefix| + 1] == 'w';
    assert |DemandMarker + n| != |n|;
  }
}

=== FILE: race.dfy ===
/** Several workers sharing one store hear the same expiry. Each worker's
    handler runs as one step (its lock attempt, then its re-arm); the order of
    the workers in the sequence is the order in which their commands reach the
    store, which the environment chooses. Releases happen later, when the
    winner's run settles. */
module Race {
  import opened Values
  import opened Keys
  import opened Store
  import opened Scheduler
  import opened Bossbat

  datatype Delivery = Delivery(store: Store, won: seq<bool>)

  function Count(bs: seq<bool>): (c: nat)
    ensures c <= |bs|
    decreases |bs|
  {
    if |bs| == 0 then 0 else (if bs[0] then 1 else 0) + Count(bs[1..])
  }

  /** Delivers one expired key to every worker in turn. Nothing already in
      the store is overwritten, so concurrent re-arms collapse into the first. */
  function Deliver(ws: seq<Worker>, s: Store, message: string, tokens: seq<string>, envs: seq<Env>): (r: Delivery)
    requires |tokens| == |ws| && |envs| == |ws|
    ensures |r.won| == |ws|
    ensures forall k :: k in s ==> k in r.store && r.store[k] == s[k]
    ensures forall i :: 0 <= i < |ws| && r.won[i] ==> Route(ws[i], message).Dispatch?
    decreases |ws|
  {
    if |ws| == 0 then Delivery(s, [])
    else
      var h := Handle(ws[0], s, message, tokens[0], envs[0]);
      var rest := Deliver(ws[1..], h.store, message, tokens[1..], envs[1..]);
      Delivery(rest.store, [h.lockWon] + rest.won)
  }

  predicate SharePrefix(ws: seq<Worker>, prefix: string) {
    forall i :: 0 <= i < |ws| ==> ws[i].prefix == prefix
  }

  /** Some worker hired the expired job and can take its lock. */
  predicate SomeCanWin(ws: seq<Worker>, message: string) {
    exists i :: 0 <= i < |ws| && Route(ws[i], message).Dispatch? && ws[i].ttl > 0
  }

  /** The single-winner property: among workers sharing a key namespace, at
      most one wins the lock for one expiry, none if the lock is already held,
      and exactly one if it is free and some worker hired the job. */
  lemma {:induction false} SingleWinner(ws: seq<Worker>, s: Store, message: string, tokens: seq<string>, envs: seq<Env>, prefix: string, name: string)
    requires |tokens| == |ws| && |envs| == |ws|
    requires SharePrefix(ws, prefix) && WorkName(prefix, message) == Some(name)
    ensures var r := Deliver(ws, s, message, tokens, envs);
      && Count(r.won) <= 1
      && (LockKey(prefix, name) in s ==> Count(r.won) == 0)
      && (LockKey(prefix, name) !in s && SomeCanWin(ws, message) ==> Count(r.won) == 1)
      && (LockKey(prefix, name) in r.store <==> LockKey(prefix, name) in s || Count(r.won) == 1)
    decreases |ws|
  {
    if |ws| > 0 {
      var lk := LockKey(prefix, name);
      var h := Handle(ws[0], s, message, tokens[0], envs[0]);
      var r := Deliver(ws, s, message, tokens, envs);
      var rest := Deliver(ws[1..], h.store, message, tokens[1..], envs[1..]);
      assert r.won == [h.lockWon] + rest.won;
      assert r.store == rest.store;
      assert Count(r.won) == (if h.lockWon then 1 else 0) + Count(rest.won) by {
        assert r.won[1..] == rest.won;
      }
      assert SharePrefix(ws[1..], prefix);
      SingleWinner(ws[1..], h.store, message, tokens[1..], envs[1..], prefix, name);
      assert lk in h.store <==> lk in s || h.lockWon;
      if lk !in s && SomeCanWin(ws, message) && !h.lockWon {
        var i :| 0 <= i < |ws| && Route(ws[i], message).Dispatch? && ws[i].ttl > 0;
        assert i != 0;
        assert SomeCanWin(ws[1..], message) by {
          assert ws[1..][i - 1] == ws[i];
        }
      }
    }
  }

  /** The lock only separates attempts that overlap it: if the winner's run
      settles and releases the lock before a slower worker's attempt reaches
      the store, that worker wins too and the occurrence runs twice. */
  lemma ReleaseBeforeLateAttemptRunsTwice(w1: Worker, w2: Worker, s: Store, message: string, t1: string, t2: string, env1: Env, env2: Env)
    requires w1.prefix == w2.prefix && w1.ttl > 0 && w2.ttl > 0
    requires Route(w1, message).Dispatch? && Route(w2, message).Dispatch?
    requires LockKey(w1.prefix, Route(w1, message).name) !in s
    ensures var lk := LockKey(w1.prefix, Route(w1, message).name);
      var h1 := Handle(w1, s, message, t1, env1);
      var h2 := Handle(w2, DelIfValue(h1.store, lk, t1), message, t2, env2);
      h1.lockWon && h2.lockWon
  {
    var name := Route(w1, message).name;
    var lk := LockKey(w1.prefix, name);
    var h1 := Handle(w1, s, message, t1, env1);
    KeysDistinct(w1.prefix, name, name);
    assert h1.lockWon;
    assert lk in h1.store && h1.store[lk] == Entry(t1, w1.ttl) by {
      var lock := TryLock(s, lk, t1, w1.ttl);
      assert lk in lock.store && lock.store[lk] == Entry(t1, w1.ttl);
    }
  }

  /** One occurrence end to end: the armed timer of job `name` expires and is
      heard by every worker; with the lock free and some worker hiring `name`,
      exactly one worker wins the run. */
  lemma {:induction false} OccurrenceRunsOnce(ws: seq<Worker>, s: Store, prefix: string, name: string, tokens: seq<string>, envs: seq<Env>)
    requires |tokens| == |ws| && |envs| == |ws|
    requires SharePrefix(ws, prefix) && !StartsWith(name, DemandMarker)
    requires JobKey(prefix, name) in s && LockKey(prefix, name) !in s
    requires exists i :: 0 <= i < |ws| && name in ws[i].jobs && ws[i].ttl > 0
    ensures var e := Expire(s, JobKey(prefix, name));
      e.1 == Some(JobKey(prefix, name)) &&
      Count(Deliver(ws, e.0, e.1.value, tokens, envs).won) == 1
  {
    var e := Expire(s, JobKey(prefix, name));
    JobKeyRoundTrip(prefix, name);
    KeysDistinct(prefix, name, name);
    var i :| 0 <= i < |ws| && name in ws[i].jobs && ws[i].ttl > 0;
    assert Route(ws[i], JobKey(prefix, name)).Dispatch?;
    assert SomeCanWin(ws, JobKey(prefix, name));
    SingleWinner(ws, e.0, JobKey(prefix, name), tokens, envs, prefix, name);
  }
}

=== FILE: scheduler.dfy ===
/** `scheduleRun`: resolve a job's next delay from `every` or `cron` and arm
    its timer key with set-if-absent; with no definition, arm the demand key
    with a one-millisecond expiry. The duration parser, the cron evaluator and
    the clock are outside the model and reach it through `Env`. */
module Scheduler {
  import opened Values
  import opened Keys
  import opened Store

  /** A job definition. The work function is identified by a number. */
  datatype JobDef = JobDef(every: JsValue, cron: JsValue, work: nat)

  /** What the cron evaluator yields for an expression: it may refuse the
      expression, or else gives the two delays `next() - now` that the
      scheduler may compute, the second one taken later and one occurrence on. */
  datatype CronReading = CronRejected | CronDelays(first: int, second: int)

  /** The outside world at the moment of scheduling: the human-duration parser
      (`None` when it throws) and the cron evaluator under the configured
      time zone and the current clock. */
  datatype Env = Env(duration: string -> Option<int>, cronDelays: JsValue -> CronReading)

  datatype ScheduleError =
    | UnknownInterval(typeName: string)  // `every` is truthy but neither string nor number
    | BadDuration                        // the duration parser threw
    | BadCron                            // the cron evaluator threw

  /** The `timeout` handed to `SET … PX`: a number, or left undefined when
      neither field is truthy (the store rejects that command). */
  datatype Timeout = Millis(ms: int) | Unset

  /** A definition is recurring when `every` or `cron` is truthy: `every: 0`
      and `every: ""` count as no interval. */
  predicate Recurring(d: JobDef)
    ensures Recurring(d) <==> !(d.every in Falsy && d.cron in Falsy)
  {
    Truthy(d.every) || Truthy(d.cron)
  }

  /** Delay resolution. A truthy `every` wins over `cron`: a number is used
      as is, a string goes to the duration parser, anything else is an error.
      Otherwise a truthy `cron` gives its first computed delay if positive and
      else its second one, unchecked. */
  function ResolveDelay(d: JobDef, env: Env): (r: Result<Timeout, ScheduleError>)
    ensures Truthy(d.every) && d.every.Num? ==> r == Ok(Millis(d.every.n))
    ensures Truthy(d.every) && d.every.Str? ==>
      (r.Ok? <==> env.duration(d.every.s).Some?) &&
      (r.Ok? ==> r.value == Millis(env.duration(d.every.s).value))
    ensures r.Err? && r.error.UnknownInterval? <==>
      Truthy(d.every) && !d.every.Num? && !d.every.Str?
    ensures r.Err? && r.error.UnknownInterval? ==> r.error.typeName == TypeOf(d.every)
    ensures !Truthy(d.every) && Truthy(d.cron) && env.cronDelays(d.cron).CronRejected? ==>
      r == Err(BadCron)
    ensures !Truthy(d.every) && Truthy(d.cron) && env.cronDelays(d.cron).CronDelays? ==>
      var c := env.cronDelays(d.cron);
      r == Ok(Millis(if c.first > 0 then c.first else c.second))
    ensures r == Ok(Unset) <==> !Recurring(d)
  {
    if Truthy(d.every) then
      match d.every
      case Str(s) =>
        (match env.duration(s)
         case Some(ms) => Ok(Millis(ms))
         case None => Err(BadDuration))
      case Num(n) => Ok(Millis(n))
      case _ => Err(UnknownInterval(TypeOf(d.every)))
    else if Truthy(d.cron) then
      match env.cronDelays(d.cron)
      case CronRejected => Err(BadCron)
      case CronDelays(first, second) => Ok(Millis(if first > 0 then first else second))
    else
      Ok(Unset)
  }

  /** The key a `scheduleRun` call targets. */
  function ScheduleTarget(prefix: string, name: string, d: Option<JobDef>): string {
    if d.None? then DemandKey(prefix, name) else JobKey(prefix, name)
  }

  /** The store after a `scheduleRun` writes at most the target key, only if
      it was absent, with the job name as value and a positive expiry. */
  ghost predicate OnlyArms(before: Store, after: Store, key: string, name: string) {
    && (forall k :: k in before ==> k in after && after[k] == before[k])
    && (forall k :: k in after && k != key ==> k in before)
    && (key in after && key !in before ==> after[key].value == name && after[key].ttl > 0)
  }

  /** `scheduleRun(name, definition?)`. An error is raised before any key is
      armed; otherwise only the target key may be added, and an already
      armed target leaves the store exactly as it was. */
  function ScheduleRun(prefix: string, s: Store, name: string, d: Option<JobDef>, env: Env): (r: Result<Store, ScheduleError>)
    ensures d.None? ==> r.Ok?
    ensures d.None? && DemandKey(prefix, name) !in s ==>
      r.value == s[DemandKey(prefix, name) := Entry(name, 1)]
    ensures r.Err? <==> d.Some? && ResolveDelay(d.value, env).Err?
    ensures r.Err? ==> r.error == ResolveDelay(d.value, env).error
    ensures r.Ok? ==> OnlyArms(s, r.value, ScheduleTarget(prefix, name, d), name)
    ensures r.Ok? && ScheduleTarget(prefix, name, d) in s ==> r.value == s
  {
    if d.None? then
      Ok(SetPxNx(s, DemandKey(prefix, name), name, 1))
    else
      match ResolveDelay(d.value, env)
      case Err(e) => Err(e)
      case Ok(Millis(t)) => Ok(SetPxNx(s, JobKey(prefix, name), name, t))
      case Ok(Unset) => Ok(s)
  }

  /** The delay armed for a recurring job is the resolved one: a fresh timer
      key carries the job name and exactly that expiry, or nothing at all when
      the delay is not positive. */
  lemma ScheduleRunArmsResolvedDelay(prefix: string, s: Store, name: string, d: JobDef, env: Env, t: int)
    requires ResolveDelay(d, env) == Ok(Millis(t))
    requires JobKey(prefix, name) !in s
    ensures t > 0 ==> ScheduleRun(prefix, s, name, Some(d), env) == Ok(s[JobKey(prefix, name) := Entry(name, t)])
    ensures t <= 0 ==> ScheduleRun(prefix, s, name, Some(d), env) == Ok(s)
  {
  }

  /** A string interval and the number it parses to schedule identically. */
  lemma StringAndNumberIntervalsAgree(d: JobDef, text: string, ms: int, env: Env)
    requires env.duration(text) == Some(ms) && text != "" && ms != 0
    ensures ResolveDelay(d.(every := Str(text)), env) == ResolveDelay(d.(every := Num(ms)), env)
  {
  }

  /** A truthy `every` shadows `cron`: changing the cron expression or what
      the cron evaluator says does not change the delay. */
  lemma EveryShadowsCron(d: JobDef, cron: JsValue, env: Env, cronDelays: JsValue -> CronReading)
    requires Truthy(d.every)
    ensures ResolveDelay(d.(cron := cron), env.(cronDelays := cronDelays)) == ResolveDelay(d, env)
  {
  }

  /** The second cron delay is used without a positivity check: whenever
      `cron` decides the delay and the evaluator yields two non-positive
      delays, the second is taken and no timer is armed. */
  lemma CronSecondDelayUnchecked(prefix: string, s: Store, name: string, d: JobDef, env: Env, a: int, b: int)
    requires !Truthy(d.every) && Truthy(d.cron)
    requires env.cronDelays(d.cron) == CronDelays(a, b) && a <= 0 && b <= 0
    ensures ResolveDelay(d, env) == Ok(Millis(b))
    ensures ScheduleRun(prefix, s, name, Some(d), env) == Ok(s)
  {
  }
}

=== FILE: store.dfy ===
/** The shared key-value store as the scheduler uses it: a map from key to
    (value, time-to-live). Only the four commands the scheduler issues are
    modelled, plus the store's own expiry event. Time does not elapse here:
    a key leaves the store through `Expire`, an event the environment picks. */
module Store {
  import opened Values

  datatype Entry = Entry(value: string, ttl: int)

  type Store = map<string, Entry>

  /** `SET key value PX ttl NX`: stores the key only if it is absent. The store
      refuses a non-positive expiry time, and then stores nothing. */
  function SetPxNx(s: Store, key: string, value: string, ttl: int): (r: Store)
    ensures key in s ==> r == s
    ensures key !in s && ttl > 0 ==> key in r && r[key] == Entry(value, ttl)
    ensures key !in s && ttl <= 0 ==> r == s
    ensures forall k :: k != key ==> (k in r <==> k in s)
    ensures forall k :: k in s ==> k in r && r[k] == s[k]
  {
    if key in s || ttl <= 0 then s else s[key := Entry(value, ttl)]
  }

  /** `DEL key`. */
  function Del(s: Store, key: string): (r: Store)
    ensures key !in r
    ensures forall k :: k != key ==> (k in r <==> k in s)
    ensures forall k :: k in r ==> r[k] == s[k]
  {
    s - {key}
  }

  /** The lock release: delete the key only while it still holds the
      releasing owner's token, so an expired and re-taken lock is left alone. */
  function DelIfValue(s: Store, key: string, token: string): (r: Store)
    ensures key in s && s[key].value == token ==> key !in r
    ensures !(key in s && s[key].value == token) ==> r == s
    ensures forall k :: k != key ==> (k in r <==> k in s)
    ensures forall k :: k in r ==> r[k] == s[k]
  {
    if key in s && s[key].value == token then s - {key} else s
  }

  /** The store's expiry of a key: the key disappears and its name is
      published; a key that is not present cannot expire. */
  function Expire(s: Store, key: string): (r: (Store, Option<string>))
    ensures r.1.Some? <==> key in s
    ensures r.1.Some? ==> r.1.value == key
    ensures key !in r.0
    ensures forall k :: k != key ==> (k in r.0 <==> k in s)
    ensures forall k :: k in r.0 ==> r.0[k] == s[k]
  {
    if key in s then (s - {key}, Some(key)) else (s, None)
  }

  /** Setting the same key twice with set-if-absent is the same as setting it
      once, whatever value and expiry the second write carries. */
  lemma SetPxNxIdempotent(s: Store, key: string, v1: string, t1: int, v2: string, t2: int)
    requires t1 > 0
    ensures SetPxNx(SetPxNx(s, key, v1, t1), key, v2, t2) == SetPxNx(s, key, v1, t1)
  {
  }
}

=== FILE: values.dfy ===
/** Small value types shared by the whole model: optional and failure-carrying
    results, and the handful of JavaScript values a job definition's `every`
    and `cron` fields can hold. */
module Values {

  datatype Option<+T> = None | Some(value: T)

  datatype Result<+T, +E> = Ok(value: T) | Err(error: E)

  datatype Outcome<+E> = Pass | Fail(error: E)

  /** A JavaScript value, as far as `every` / `cron` are inspected: only its
      truthiness and its `typeof` matter. Numbers and BigInts are integers here. */
  datatype JsValue =
    | Undefined
    | Null
    | Bool(b: bool)
    | Num(n: int)
    | BigInt(i: int)
    | Str(s: string)
    | Symbol
    | Obj   // plain objects and arrays
    | Fun   // functions

  /** The falsy values of JavaScript, listed once: every other value is truthy. */
  const Falsy: set<JsValue> := {Undefined, Null, Bool(false), Num(0), BigInt(0), Str("")}

  /** JavaScript truthiness, decided per kind of value. */
  predicate Truthy(v: JsValue)
    ensures Truthy(v) <==> v !in Falsy
  {
    match v
    case Undefined => false
    case Null => false
    case Bool(b) => b
    case Num(n) => n != 0
    case BigInt(i) => i != 0
    case Str(s) => s != ""
    case Symbol => true
    case Obj => true
    case Fun => true
  }

  /** The `typeof` operator. */
  function TypeOf(v: JsValue): (t: string)
    ensures t in {"undefined", "object", "boolean", "number", "bigint", "string", "symbol", "function"}
    ensures t == "number" <==> v.Num?
    ensures t == "string" <==> v.Str?
    ensures t == "object" <==> v.Null? || v.Obj?
  {
    match v
    case Undefined => "undefined"
    case Null => "object"
    case Bool(_) => "boolean"
    case Num(_) => "number"
    case BigInt(_) => "bigint"
    case Str(_) => "string"
    case Symbol => "symbol"
    case Obj => "object"
    case Fun => "function"
  }
}
